=== FILE: README.md ===
# YoTeReparo service records, modelled in Dafny

YoTeReparo is a marketplace backend in which providers publish the repair
services they offer. This project models its service-record ("Servicio")
subsystem in three layers, following the Java classes:

- `ServiceDto`, the transfer object a client submits. The model covers its
  Bean Validation annotations, read as a table of constraints per field plus
  the class-level `@GreaterThan` rule (`ServiceDtoValidation`). It also
  covers the derived setter `setPrecioPromedio`, field-wise `equals` and the
  31-polynomial `hashCode` with Java `int` overflow (`ServiceDtos`,
  `JavaInts`).
- `ServiceManagerImpl`, the service layer (`ServiceManager`). The database is
  a `map<int, Service>` from identifier to record. The layer creates records
  as ACTIVO, has a no-op update, enables, disables and deletes records, looks
  them up, and detects duplicates.
- `ServiceController`, the REST endpoints (`ServiceController`). Each request
  and the current store map to a reply: an HTTP status, a body, and the store
  afterwards.

Java `Float` values are modelled as the exact decimals they print as
(`real`). `@Digits(integer = i, fraction = f)` then means: the value is a
whole number of units of 10^-f, and its absolute value is below 10^i
(`Decimals`).

Some collaborators of the Java code are not part of this model. They enter
as parameters:

- the DTO/entity converter, which may fail;
- the `Service` entity's `equals`;
- the clock;
- the identifier the database generates;
- the per-type `hashCode`s.

A provider's service collection (`User.getServicios()`) is taken to be the
stored records whose owner is that provider (`ServiceManager.OwnedBy`).

Points of the Java code worth knowing when reading the model:

- `updateService` has an empty body (`ServiceManagerImpl.java:49-52`), so it
  is modelled as a no-op. The update endpoint still answers 200 with the
  stored record, unchanged.
- The controller's mapping of outcomes to HTTP statuses is modelled.
- The controller performs no role check on the provider before creating a
  service.

## Model

| member | source | states |
|---|---|---|
| Decimals.WithinDigitsIsScaledWhole | src/main/java/com/yotereparo/controller/dto/ServiceDto.java:29-32 | A value accepted by `@Digits(i, f)` is a whole number of 10^-f units, and that count has at most i+f digits (its absolute value is below 10^(i+f)) |
| Decimals.ScaledWholeIsWithinDigits | src/main/java/com/yotereparo/controller/dto/ServiceDto.java:29-32 | Conversely, any whole count of 10^-f units with at most i+f digits is accepted by `@Digits(i, f)` |
| JavaInts.HashFold | src/main/java/com/yotereparo/controller/dto/ServiceDto.java:205-223 | Folding `31 * result + hash` over the field hashes in `int` arithmetic always yields a Java `int` |
| JavaInts.HashFoldIsWrappedHorner | src/main/java/com/yotereparo/controller/dto/ServiceDto.java:205-223 | Overflowing at every step of the fold gives the same result as computing the exact polynomial and reducing it to 32 bits once |
| ServiceDtos.SetPrecioPromedio | src/main/java/com/yotereparo/controller/dto/ServiceDto.java:127-129 | Needs both bounds present. Afterwards `precioPromedio` is present, twice it equals max + min, and no other field changes |
| ServiceDtos.AverageIgnoresArgument | src/main/java/com/yotereparo/controller/dto/ServiceDto.java:127-129 | The value passed to the setter has no effect on the result |
| ServiceDtos.AverageOfValidBounds | src/main/java/com/yotereparo/controller/dto/ServiceDto.java:127-129 | Take bounds a valid submission can carry: non-negative, within 9/2 digits, max above min. Their average lies strictly between them, is non-negative and is below 10^9 |
| ServiceDtos.AverageCanLeaveFractionEnvelope | src/main/java/com/yotereparo/controller/dto/ServiceDto.java:39-41 | Bounds 0.01 and 0.00 both fit 9/2 digits, yet their stored average 0.005 breaks the 9/2 `@Digits` declared on `precioPromedio` |
| ServiceDtos.NewServiceDto | src/main/java/com/yotereparo/controller/dto/ServiceDto.java:70-73 | The object the no-argument constructor builds: every reference null, `facturaEmitida` false, `mediosDePago` an empty set |
| ServiceDtos.Equals | src/main/java/com/yotereparo/controller/dto/ServiceDto.java:226-313 | The field-by-field comparison `equals` performs, in its order |
| ServiceDtos.EqualsIsValueEquality | src/main/java/com/yotereparo/controller/dto/ServiceDto.java:226-313 | `equals` compares all sixteen fields, `id` included, with null equal only to null. It holds exactly when the two records are identical |
| ServiceDtos.EqualsIsEquivalence | src/main/java/com/yotereparo/controller/dto/ServiceDto.java:226-313 | `equals` is reflexive, symmetric and transitive |
| ServiceDtos.HashCode | src/main/java/com/yotereparo/controller/dto/ServiceDto.java:203-224 | `hashCode` is a Java `int`. It equals the 31-polynomial, seeded with 1, over the sixteen field hashes in the method's order, with null as 0 and the boolean as 1231/1237, reduced to 32 bits |
| ServiceDtos.EqualsImpliesEqualHashCode | src/main/java/com/yotereparo/controller/dto/ServiceDto.java:203-313 | Objects that are `equals` have equal `hashCode`, whatever the per-type hashes are |
| ServiceDtoValidation.Annotations | src/main/java/com/yotereparo/controller/dto/ServiceDto.java:19-71 | The constraints each field declares: `@NotEmpty`, `@NotNull`, `@Digits(i, f)`, `@Min(n)` |
| ServiceDtoValidation.Satisfies | src/main/java/com/yotereparo/controller/dto/ServiceDto.java:19-71 | When a value meets a constraint; null passes `@Digits` and `@Min` |
| ServiceDtoValidation.Violations | src/main/java/com/yotereparo/controller/dto/ServiceDto.java:16-71 | The validity predicate: every unmet field constraint plus the class-level `@GreaterThan` report |
| ServiceDtoValidation.NotEmptyText | src/main/java/com/yotereparo/controller/dto/ServiceDto.java:21-25 | A field annotated only `@NotEmpty` is reported exactly when its text is null or empty |
| ServiceDtoValidation.RequiredTextFields | src/main/java/com/yotereparo/controller/dto/ServiceDto.java:21-64 | `usuarioPrestador`, `descripcion` and `tipoServicio` each get a not-empty violation exactly when they are null or empty |
| ServiceDtoValidation.RequiredDecimal | src/main/java/com/yotereparo/controller/dto/ServiceDto.java:29-37 | A field annotated `@NotNull @Digits(i, 2) @Min(0)` is reported as null exactly when absent. It is reported out of bounds exactly when present and outside the envelope, and below minimum exactly when negative |
| ServiceDtoValidation.RequiredDecimalFields | src/main/java/com/yotereparo/controller/dto/ServiceDto.java:29-54 | `precioMaximo` and `precioMinimo` (9/2 digits) and `horasEstimadasEjecucion` (5/2 digits) must be present, inside their envelope and non-negative. Each failure has its own violation |
| ServiceDtoValidation.OptionalDecimal | src/main/java/com/yotereparo/controller/dto/ServiceDto.java:39-49 | A field annotated `@Digits(9, 2) @Min(0)` without `@NotNull` has no violation when absent. When present it is judged on envelope and sign |
| ServiceDtoValidation.OptionalPriceFields | src/main/java/com/yotereparo/controller/dto/ServiceDto.java:39-49 | An absent `precioPromedio`, `precioInsumos` or `precioAdicionales` produces no violation. A present one is reported exactly when outside 9/2 digits or negative |
| ServiceDtoValidation.PriceBoundsOrder | src/main/java/com/yotereparo/controller/dto/ServiceDto.java:16 | The class-level rule reports `precioMaximo` exactly when both bounds are present and max <= min |
| ServiceDtoValidation.WorkersAndPaymentMethods | src/main/java/com/yotereparo/controller/dto/ServiceDto.java:56-71 | `cantidadTrabajadores` is reported when null, or when below 1. `mediosDePago` is reported when null or empty |
| ServiceDtoValidation.FacturaEmitidaNeverViolated | src/main/java/com/yotereparo/controller/dto/ServiceDto.java:60-61 | The primitive `facturaEmitida` never appears in a violation |
| ServiceDtoValidation.ValidIffNoViolations | src/main/java/com/yotereparo/controller/dto/ServiceDto.java:16-71 | The annotation table gives no violations exactly when a field-by-field statement of validity holds |
| ServiceDtoValidation.ViolationsIgnoreUnannotated | src/main/java/com/yotereparo/controller/dto/ServiceDto.java:16-71 | Changing `id`, `disponibilidad`, `fechaCreacion` or `estado` never changes the violations |
| ServiceDtoValidation.NewServiceDtoIsInvalid | src/main/java/com/yotereparo/controller/dto/ServiceDto.java:70-73 | A freshly constructed object is invalid. Its default empty `mediosDePago` is reported |
| ServiceDtoValidation.Validate | src/main/java/com/yotereparo/controller/dto/ServiceDto.java:16-71 | Checking every annotation of every field, then the class rule, collects exactly the violation set |
| ServiceManager.GetServiceById | src/main/java/com/yotereparo/service/ServiceManagerImpl.java:78-82 | The lookup finds a record exactly when the id is stored, and returns that record |
| ServiceManager.ExistById | src/main/java/com/yotereparo/service/ServiceManagerImpl.java:100-104 | `exist(id)` holds exactly when the lookup is non-null |
| ServiceManager.CreateService | src/main/java/com/yotereparo/service/ServiceManagerImpl.java:37-46 | Adds one record under a fresh id and leaves every other record as it was. The new record is ACTIVO, has no image, carries the supplied time, and keeps the given value in every other field |
| ServiceManager.UpdateService | src/main/java/com/yotereparo/service/ServiceManagerImpl.java:48-52 | The store is left exactly as it was |
| ServiceManager.EnableServiceById | src/main/java/com/yotereparo/service/ServiceManagerImpl.java:54-61 | A stored record becomes ACTIVO with every other field and record unchanged. A missing id changes nothing |
| ServiceManager.DisableServiceById | src/main/java/com/yotereparo/service/ServiceManagerImpl.java:63-70 | A stored record becomes INACTIVO with every other field and record unchanged. A missing id changes nothing |
| ServiceManager.DeleteServiceById | src/main/java/com/yotereparo/service/ServiceManagerImpl.java:72-76 | Afterwards `exist(id)` is false, existence of every other id is unchanged, and the remaining records are untouched |
| ServiceManager.EnableIdempotent | src/main/java/com/yotereparo/service/ServiceManagerImpl.java:54-61 | Enabling twice equals enabling once |
| ServiceManager.DisableIdempotent | src/main/java/com/yotereparo/service/ServiceManagerImpl.java:63-70 | Disabling twice equals disabling once |
| ServiceManager.DisableThenEnableRestores | src/main/java/com/yotereparo/service/ServiceManagerImpl.java:54-70 | Disabling then enabling an ACTIVO record restores the store |
| ServiceManager.DeleteUndoesCreate | src/main/java/com/yotereparo/service/ServiceManagerImpl.java:37-76 | Deleting the record just created restores the store |
| ServiceManager.LifecyclePreservesWellFormed | src/main/java/com/yotereparo/service/ServiceManagerImpl.java:37-76 | Create, update, enable, disable and delete keep every record keyed by its own id, stamped, with a status and no image |
| ServiceManager.OwnedByAcrossLifecycle | src/main/java/com/yotereparo/service/ServiceManagerImpl.java:37-76 | A provider's collection gains the new id only when the created service is the provider's, loses exactly the deleted id, and is unchanged by enable, disable and update |
| ServiceManager.IsDuplicate | src/main/java/com/yotereparo/service/ServiceManagerImpl.java:90-98 | The predicate `exist(Service)` decides: some record of the candidate's own provider equals the candidate under the entity's `equals` |
| ServiceManager.Exist | src/main/java/com/yotereparo/service/ServiceManagerImpl.java:90-98 | Scanning the provider's service collection answers true exactly when some record of that provider equals the candidate |
| ServiceManager.OtherProvidersIrrelevant | src/main/java/com/yotereparo/service/ServiceManagerImpl.java:90-98 | A record of another provider never decides whether the candidate is a duplicate |
| ServiceManager.CreatedIsDuplicateOfItsSource | src/main/java/com/yotereparo/service/ServiceManagerImpl.java:90-98 | Under equality on client-chosen fields, a just-created record is a duplicate of the entity it was created from |
| ServiceManager.UnstampedCandidateNeverDuplicate | src/main/java/com/yotereparo/service/ServiceManagerImpl.java:90-98 | Under equality on all fields but `id`, a candidate without a creation time matches no persisted record |
| ServiceController.ListServices | src/main/java/com/yotereparo/controller/ServiceController.java:59-77 | 204 with no body exactly when the store is empty. Otherwise 200 with one DTO per stored record. The store is unchanged |
| ServiceController.GetService | src/main/java/com/yotereparo/controller/ServiceController.java:86-100 | 200 with the record's DTO exactly when the id exists, otherwise 404. The store is unchanged |
| ServiceController.CreateService | src/main/java/com/yotereparo/controller/ServiceController.java:110-146 | Violations give 400 with the violation set. Conversion failure gives 400. A duplicate for the owner gives 409 with the already-exists error. Otherwise 201 with the new id, one ACTIVO stamped record added and the rest untouched. Only 201 changes the store |
| ServiceController.UpdateService | src/main/java/com/yotereparo/controller/ServiceController.java:159-191 | A missing id gives 404. An invalid body (with the path id) gives 400 with its violation set, and an unconvertible one 400 with the conversion error. Otherwise 200 with the stored record's DTO. The store never changes |
| ServiceController.EnableService | src/main/java/com/yotereparo/controller/ServiceController.java:200-220 | 200 with no body exactly when the id exists, and the record is then ACTIVO. Otherwise 404 and the store is unchanged |
| ServiceController.DisableService | src/main/java/com/yotereparo/controller/ServiceController.java:229-249 | 200 with no body exactly when the id exists, and the record is then INACTIVO. Otherwise 404 and the store is unchanged |
| ServiceController.DeleteService | src/main/java/com/yotereparo/controller/ServiceController.java:258-278 | 200 with no body exactly when the id exists, and only that record is gone. Otherwise 404 and the store is unchanged |
| ServiceController.Dispatch | src/main/java/com/yotereparo/controller/ServiceController.java:55-278 | Every request gets one of 200, 201, 204, 400, 404, 409. Only a 200 or 201 reply can change the store, and 201 is exactly a creation that changed it |
| ServiceController.CreateIgnoresClientId | src/main/java/com/yotereparo/controller/ServiceController.java:113-116 | The id a client puts in a creation request does not affect the reply |
| ServiceController.CreateAcceptsExactlyValidNewServices | src/main/java/com/yotereparo/controller/ServiceController.java:113-135 | Creation reports validation errors exactly for invalid submissions, with the store unchanged. It succeeds exactly for valid, convertible submissions that are not duplicates |
| ServiceController.ZeroWorkersIsBadRequest | src/main/java/com/yotereparo/controller/ServiceController.java:113-135 | Zero workers gives 400 listing `cantidadTrabajadores` below minimum, with the store unchanged |
| ServiceController.CreatedRecordKeepsValidatedFields | src/main/java/com/yotereparo/controller/ServiceController.java:113-146 | With a converter that copies the same-named fields (the mapping set up in AppConfig.java:80-83), the record a 201 stores has the submission's values: a description, non-negative prices with max above min, hours, at least one worker and a payment method |
| ServiceController.ResubmissionConflicts | src/main/java/com/yotereparo/controller/ServiceController.java:116-130 | Under equality on client-chosen fields, a second identical creation request answers 409 |
| ServiceController.UnstampedSubmissionNeverConflicts | src/main/java/com/yotereparo/controller/ServiceController.java:116-130 | Under equality on all fields but `id`, a submission converted without a creation time is never refused as a duplicate |
| ServiceController.UpdateChecksExistenceFirst | src/main/java/com/yotereparo/controller/ServiceController.java:162-180 | On a missing id, update answers 404 whatever the body, even an invalid one |
| ServiceController.UpdateUsesPathId | src/main/java/com/yotereparo/controller/ServiceController.java:162-169 | The id in the body never affects the update reply; the path id is used |
| ServiceController.ListAgreesWithGet | src/main/java/com/yotereparo/controller/ServiceController.java:62-99 | The listing's DTO for a stored id is the DTO that getting that id returns |
| ServiceController.MissingIdIsNotFound | src/main/java/com/yotereparo/controller/ServiceController.java:86-278 | Get, update, enable, disable and delete on a missing id answer 404 with the store unchanged |
| ServiceController.StatusRequestsIdempotent | src/main/java/com/yotereparo/controller/ServiceController.java:200-249 | Repeating an enable or disable request gives the same reply and store |
| ServiceController.DeleteUndoesCreateRequest | src/main/java/com/yotereparo/controller/ServiceController.java:110-278 | Deleting the record a 201 creation added answers 200 and restores the store |
| ServiceController.DispatchPreservesWellFormed | src/main/java/com/yotereparo/controller/ServiceController.java:110-278 | No request breaks the shape of persisted records: keyed by id, stamped, with a status and no image |

## Left out

- IEEE 754 single precision is not modelled. Prices and hours are exact decimals, so rounding in `(precioMaximo + precioMinimo) / 2`, NaN, infinities and negative zero are out.
- How the `@Digits` validator turns a `Float` into decimal digits (through its string form) is not modelled. A value is judged by its exact decimal.
- The `@GreaterThan` validator's source is not part of this model. It is assumed to report only a pair of present bounds with max <= min; a missing bound is reported by its own `@NotNull`.
- `ValidationUtils.serviceInputValidation` is not part of this model. The binding result is taken to hold exactly the Bean Validation violations. Their order and message texts are not modelled, so a 400 carries the violation set.
- The DTO/entity converter (configured in `configuration/AppConfig.java:80-83`, which skips owner and type) is a parameter. Its failure (`CustomResponseError`) is `None`. That it copies every other same-named field is the assumption `CopiesFields`; the handlers do not require it, so the field values of a stored record are proved only under it.
- The entity `Service.equals` is not visible, so duplicate detection takes the equality as a parameter. Two plausible readings are studied; the 409 on resubmission holds only under the first.
- `equals` against null, against another class, and the reference-identity shortcut are not modelled. The Dafny `Equals` compares two transfer objects.
- The per-type `hashCode`s of `Integer`, `String`, `Float`, `DateTime` and the payment-method set are parameters.
- Java `Integer` width for identifiers and worker counts is not modelled. Identifiers come from the database, and counts only meet `@Min(1)`.
- The Joda clock (`new DateTime()`) is a parameter. So is the database's identifier generation, taken to be fresh for the store.
- The generic 500 path (any other exception), logging, localized messages, error-JSON formatting and the `Location` URI text are out. The 201 reply carries only the new id.
- `@Transactional` boundaries and concurrent requests are out. Every request is handled against one snapshot of the store.
- Filtered listings by user, district, city and payment method (`ServiceManagerImpl.java:112-134`) are out; they delegate to DAO queries that are not shown.
- Photo update (`updateServicePhotoById`) is out. It has an empty body and no endpoint.
- The Java string comparison `!=` on the status (`ServiceManagerImpl.java:57`, `66`) is out. Status is a two-valued enum, and setting it to its current value changes nothing either way.
- ServiceDtos.EqualsIsValueEquality: each field is compared by value. Joda `DateTime.equals` also compares the chronology (time zone), so two objects at the same instant in different zones are unequal in Java but equal here, because a timestamp carries no zone. `PaymentMethod.equals` is not part of this model and is taken to compare `id` and `descripcion`.
- JSON binding of a request body is not modelled; a request carries the already bound transfer object. Binding calls `setPrecioPromedio` whenever the body has a `precioPromedio` key, so the bound object holds the average of the bounds, not the submitted value. With bounds 100.01 and 50.00 the stored 75.005 then breaks the 9/2 envelope (`ServiceDtos.AverageCanLeaveFractionEnvelope` shows such a case), and if the key precedes either bound the setter throws during binding.
- ServiceController.ListServices: the list order that `getAllServices` returns is not modelled. The body maps each stored id to its DTO.

=== FILE: decimals.dfy ===
/**
 * Decimal values as Bean Validation's `@Digits` and `@Min` see them. A Java
 * `Float` field is modelled by the exact decimal value it prints as, a `real`.
 */
module Decimals {

  function Pow10(n: nat): (r: nat)
    ensures r >= 1
  {
    if n == 0 then 1 else 10 * Pow10(n - 1)
  }

  /** Powers of ten multiply by adding exponents. */
  lemma {:induction false} Pow10Add(a: nat, b: nat)
    ensures Pow10(a + b) == Pow10(a) * Pow10(b)
    decreases a
  {
    if a > 0 {
      Pow10Add(a - 1, b);
      assert Pow10(a + b) == 10 * Pow10(a - 1 + b);
    }
  }

  predicate IsWhole(x: real) {
    x.Floor as real == x
  }

  /** x counted in units of 10^-fraction. */
  function Scaled(x: real, fraction: nat): real {
    x * (Pow10(fraction) as real)
  }

  /**
   * `@Digits(integer = i, fraction = f)` holds of a present value: at most
   * `i` digits before the decimal point and at most `f` after it.
   */
  predicate WithinDigits(x: real, integer: nat, fraction: nat) {
    && IsWhole(Scaled(x, fraction))
    && -(Pow10(integer) as real) < x < Pow10(integer) as real
  }

  /**
   * A value inside the digit envelope is a whole number of units of
   * 10^-fraction, and that count has at most integer + fraction digits.
   */
  lemma WithinDigitsIsScaledWhole(x: real, integer: nat, fraction: nat)
    requires WithinDigits(x, integer, fraction)
    ensures var units := Scaled(x, fraction).Floor;
            && units as real == Scaled(x, fraction)
            && -(Pow10(integer + fraction) as int) < units < Pow10(integer + fraction)
  {
    var units := Scaled(x, fraction).Floor;
    UnitsBound(x, units, integer, fraction);
  }

  lemma UnitsBound(x: real, units: int, integer: nat, fraction: nat)
    requires units as real == Scaled(x, fraction)
    requires -(Pow10(integer) as real) < x < Pow10(integer) as real
    ensures -(Pow10(integer + fraction) as int) < units < Pow10(integer + fraction)
  {
    Pow10Add(integer, fraction);
    UnitsScaled(x, units, Pow10(integer), Pow10(fraction), Pow10(integer + fraction));
  }

  lemma UnitsScaled(x: real, units: int, q: nat, p: nat, n: nat)
    requires p > 0 && n == q * p && units as real == x * (p as real)
    requires -(q as real) < x < q as real
    ensures -(n as int) < units < n
  {
    RealOfProduct(q, p);
    ScaleBounds(x, q as real, p as real);
    assert -(n as real) < units as real < n as real;
  }

  /** Conversely, a whole count of such units inside those bounds is inside the envelope. */
  lemma ScaledWholeIsWithinDigits(x: real, units: int, integer: nat, fraction: nat)
    requires units as real == Scaled(x, fraction)
    requires -(Pow10(integer + fraction) as int) < units < Pow10(integer + fraction)
    ensures WithinDigits(x, integer, fraction)
  {
    WholeIsWhole(units);
    Pow10Add(integer, fraction);
    UnitsUnscaled(x, units, Pow10(integer), Pow10(fraction), Pow10(integer + fraction));
  }

  lemma WholeIsWhole(n: int)
    ensures IsWhole(n as real)
  {
  }

  lemma UnitsUnscaled(x: real, units: int, q: nat, p: nat, n: nat)
    requires p > 0 && n == q * p && units as real == x * (p as real)
    requires -(n as int) < units < n
    ensures -(q as real) < x < q as real
  {
    RealOfProduct(q, p);
    UnscaleBounds(x, q as real, p as real);
  }

  lemma RealOfProduct(a: int, b: int)
    ensures (a * b) as real == a as real * b as real
  {
  }

  lemma ScaleBounds(x: real, q: real, p: real)
    requires p > 0.0 && -q < x < q
    ensures -(q * p) < x * p < q * p
  {
  }

  lemma UnscaleBounds(x: real, q: real, p: real)
    requires p > 0.0 && -(q * p) < x * p < q * p
    ensures -q < x < q
  {
  }
}

=== FILE: java_ints.dfy ===
/** Java's 32-bit `int` arithmetic, written out over unbounded integers. */
module JavaInts {

  const TwoTo31: int := 0x8000_0000
  const TwoTo32: int := 0x1_0000_0000

  predicate IsInt32(x: int) {
    -TwoTo31 <= x < TwoTo31
  }

  /** The two's-complement value a Java `int` holds after computing x. */
  function Wrap32(x: int): (r: int)
    ensures IsInt32(r)
  {
    (x + TwoTo31) % TwoTo32 - TwoTo31
  }

  /** Wrapping subtracts a whole number of 2^32 periods. */
  lemma WrapSubtractsPeriods(x: int)
    ensures Wrap32(x) == x - ((x + TwoTo31) / TwoTo32) * TwoTo32
  {
  }

  /** Adding whole periods does not change the wrapped value. */
  lemma WrapPeriodic(y: int, m: int)
    ensures Wrap32(y + m * TwoTo32) == Wrap32(y)
  {
    assert (y + m * TwoTo32 + TwoTo31) % TwoTo32 == (y + TwoTo31) % TwoTo32;
  }

  /** One step of the `result = prime * result + h` recurrence of `hashCode`. */
  function HashStep(acc: int, h: int): int {
    Wrap32(31 * acc + h)
  }

  /** The `hashCode` recurrence folded over the field hashes, wrapping at every step. */
  function HashFold(acc: int, hs: seq<int>): (r: int)
    requires IsInt32(acc)
    ensures IsInt32(r)
    decreases |hs|
  {
    if hs == [] then acc else HashFold(HashStep(acc, hs[0]), hs[1..])
  }

  /** The same recurrence over unbounded integers. */
  function Horner(acc: int, hs: seq<int>): int
    decreases |hs|
  {
    if hs == [] then acc else Horner(31 * acc + hs[0], hs[1..])
  }

  /**
   * Wrapping after every step gives the same `int` as computing the
   * polynomial exactly and wrapping once at the end.
   */
  lemma {:induction false} HashFoldIsWrappedHorner(acc: int, hs: seq<int>)
    ensures HashFold(Wrap32(acc), hs) == Wrap32(Horner(acc, hs))
    decreases |hs|
  {
    if hs != [] {
      StepRespectsWrap(acc, hs[0]);
      HashFoldIsWrappedHorner(31 * acc + hs[0], hs[1..]);
    }
  }

  /** One `hashCode` step from a wrapped accumulator equals the wrapped exact step. */
  lemma StepRespectsWrap(acc: int, h: int)
    ensures HashStep(Wrap32(acc), h) == Wrap32(31 * acc + h)
  {
    var q := (acc + TwoTo31) / TwoTo32;
    WrapSubtractsPeriods(acc);
    assert 31 * Wrap32(acc) + h == (31 * acc + h) + (-31 * q) * TwoTo32;
    WrapPeriodic(31 * acc + h, -31 * q);
  }
}

=== FILE: model.dfy ===
/**
 * The persisted service record ("Servicio") and the values it refers to.
 * Timestamps are Joda instants counted in milliseconds.
 */
module Model {
  import opened Options

  /** Identifier of the provider account (`User`) that owns a service. */
  type UserId = string

  /** A creation timestamp, in milliseconds since the epoch. */
  type Instant = int

  /** A Java `byte`, which is signed. */
  newtype byte = x: int | -128 <= x < 128

  datatype PaymentMethod = PaymentMethod(id: int, descripcion: string)

  /** The two lifecycle states a stored service can be in. */
  datatype Status = Activo | Inactivo

  /**
   * The `Service` entity. The owner and the service type are references the
   * converter has already resolved, so they are never null here; every other
   * field may be null exactly as in the entity.
   */
  datatype Service = Service(
    id: Option<int>,
    usuarioPrestador: UserId,
    descripcion: Option<string>,
    disponibilidad: Option<string>,
    precioMaximo: Option<real>,
    precioMinimo: Option<real>,
    precioPromedio: Option<real>,
    precioInsumos: Option<real>,
    precioAdicionales: Option<real>,
    horasEstimadasEjecucion: Option<real>,
    cantidadTrabajadores: Option<int>,
    facturaEmitida: bool,
    tipoServicio: string,
    fechaCreacion: Option<Instant>,
    estado: Option<Status>,
    mediosDePago: Option<set<PaymentMethod>>,
    imagen: Option<seq<byte>>)
}

=== FILE: options.dfy ===
/** A Java reference that may be null, as a value. */
module Options {

  datatype Option<+T> = None | Some(value: T)
}

=== FILE: service_controller.dfy ===
/**
 * The REST controller for service records (`ServiceController`): each request
 * together with the current store gives a reply, made of an HTTP status, a
 * body and the store after the request.
 *
 * The DTO/entity converter, the entity's `equals`, the clock and the
 * identifier the database generates are not part of this model; they come in
 * through a `Context`.
 */
module ServiceController {
  import opened Options
  import opened Model
  import opened ServiceDtos
  import opened ServiceDtoValidation
  import ServiceManager

  type Store = ServiceManager.Store

  const Ok: int := 200
  const Created: int := 201
  const NoContent: int := 204
  const BadRequest: int := 400
  const NotFound: int := 404
  const Conflict: int := 409

  /**
   * The DTO/entity converter. `toEntity` answers None where the real converter
   * throws `CustomResponseError`.
   */
  datatype Converter = Converter(toEntity: ServiceDto -> Option<Service>, toDto: Service -> ServiceDto)

  /**
   * The entity keeps the transfer object's same-named fields: the object
   * mapper is told to skip only the owner and the service type, which the
   * converter resolves itself.
   */
  predicate KeepsFields(d: ServiceDto, s: Service) {
    && s.descripcion == d.descripcion
    && s.disponibilidad == d.disponibilidad
    && s.precioMaximo == d.precioMaximo
    && s.precioMinimo == d.precioMinimo
    && s.precioPromedio == d.precioPromedio
    && s.precioInsumos == d.precioInsumos
    && s.precioAdicionales == d.precioAdicionales
    && s.horasEstimadasEjecucion == d.horasEstimadasEjecucion
    && s.cantidadTrabajadores == d.cantidadTrabajadores
    && s.facturaEmitida == d.facturaEmitida
    && s.mediosDePago == d.mediosDePago
  }

  /** A converter whose every successful conversion keeps the copied fields. */
  ghost predicate CopiesFields(c: Converter) {
    forall d :: c.toEntity(d).Some? ==> KeepsFields(d, c.toEntity(d).value)
  }

  /**
   * What a request is handled against besides the store: the converter, the
   * entity's `equals` (`same`), the current time, and the identifier the
   * database would generate for a new record.
   */
  datatype Context = Context(converter: Converter, same: (Service, Service) -> bool, now: Instant, newId: int)

  /** One request per controller endpoint. */
  datatype Request =
    | ListAll                          // GET    /services/
    | GetById(id: int)                 // GET    /services/{id}
    | Post(body: ServiceDto)           // POST   /services/
    | Put(id: int, body: ServiceDto)   // PUT    /services/{id}
    | PutEnable(id: int)               // PUT    /services/{id}/enable
    | PutDisable(id: int)              // PUT    /services/{id}/disable
    | DeleteById(id: int)              // DELETE /services/{id}

  /** The message key of an error body. */
  datatype ErrorKey = ServiceDoesntExist | ServiceAlreadyExist | ConversionFailed

  datatype Body =
    | NoBody
    | Resource(dto: ServiceDto)
    | Resources(dtos: map<int, ServiceDto>)
    | Location(id: int)
    | ValidationErrors(errors: set<Violation>)
    | Error(key: ErrorKey)

  datatype Reply = Reply(status: int, body: Body, store: Store)

  // ---------------------------------------------------------------------------
  // Handlers

  /** `listServices`: every stored record as a DTO, or 204 when there is none. */
  function ListServices(ctx: Context, store: Store): (r: Reply)
    ensures r.store == store
    ensures r.status == NoContent <==> store == map[]
    ensures r.status == Ok <==> store != map[]
    ensures r.status == Ok ==>
              && r.body.Resources?
              && r.body.dtos.Keys == store.Keys
              && forall k :: k in store ==> r.body.dtos[k] == ctx.converter.toDto(store[k])
    ensures r.status == NoContent ==> r.body == NoBody
  {
    if store != map[] then
      Reply(Ok, Resources(map k | k in store :: ctx.converter.toDto(store[k])), store)
    else
      Reply(NoContent, NoBody, store)
  }

  /** `getService`: the record under id as a DTO, or 404. */
  function GetService(ctx: Context, store: Store, id: int): (r: Reply)
    ensures r.store == store
    ensures r.status == Ok <==> ServiceManager.ExistById(store, id)
    ensures r.status == NotFound <==> !ServiceManager.ExistById(store, id)
    ensures r.status == Ok ==> r.body == Resource(ctx.converter.toDto(ServiceManager.GetServiceById(store, id).value))
    ensures r.status == NotFound ==> r.body == Error(ServiceDoesntExist)
  {
    match ServiceManager.GetServiceById(store, id)
    case Some(s) => Reply(Ok, Resource(ctx.converter.toDto(s)), store)
    case None => Reply(NotFound, Error(ServiceDoesntExist), store)
  }

  /**
   * `createService`: validate the submission; then drop its identifier,
   * convert it, and refuse it if the provider already has an equal service;
   * otherwise persist it under the generated identifier.
   */
  function CreateService(ctx: Context, store: Store, body: ServiceDto): (r: Reply)
    requires ctx.newId !in store
    ensures r.status in {Created, BadRequest, Conflict}
    ensures r.status != Created ==> r.store == store
    ensures Violations(body) != {} ==> r == Reply(BadRequest, ValidationErrors(Violations(body)), store)
    ensures Violations(body) == {} && ctx.converter.toEntity(body.(id := None)).None? ==>
              r == Reply(BadRequest, Error(ConversionFailed), store)
    ensures r.status == Conflict <==>
              && Violations(body) == {}
              && ctx.converter.toEntity(body.(id := None)).Some?
              && ServiceManager.IsDuplicate(store, ctx.converter.toEntity(body.(id := None)).value, ctx.same)
    ensures r.status == Conflict ==> r == Reply(Conflict, Error(ServiceAlreadyExist), store)
    ensures r.status == Created ==>
              && r.body == Location(ctx.newId)
              && r.store == ServiceManager.CreateService(store, ctx.converter.toEntity(body.(id := None)).value, ctx.now, ctx.newId)
              && r.store.Keys == store.Keys + {ctx.newId}
              && (forall k :: k in store ==> r.store[k] == store[k])
              && ServiceManager.Persisted(ctx.newId, r.store[ctx.newId])
              && r.store[ctx.newId].estado == Some(Activo)
              && r.store[ctx.newId].fechaCreacion == Some(ctx.now)
  {
    var errors := Violations(body);
    if errors != {} then
      Reply(BadRequest, ValidationErrors(errors), store)
    else
      match ctx.converter.toEntity(body.(id := None))
      case None => Reply(BadRequest, Error(ConversionFailed), store)
      case Some(service) =>
        if ServiceManager.IsDuplicate(store, service, ctx.same) then
          Reply(Conflict, Error(ServiceAlreadyExist), store)
        else
          Reply(Created, Location(ctx.newId), ServiceManager.CreateService(store, service, ctx.now, ctx.newId))
  }

  /**
   * `updateService`: the path identifier replaces the body's; an unknown
   * identifier is refused before the body is looked at; a valid body is
   * converted and handed to the (empty) update, and the stored record is
   * returned as it is.
   */
  function UpdateService(ctx: Context, store: Store, id: int, body: ServiceDto): (r: Reply)
    ensures r.store == store
    ensures r.status in {Ok, BadRequest, NotFound}
    ensures r.status == NotFound <==> id !in store
    ensures r.status == BadRequest <==>
              id in store && (Violations(body.(id := Some(id))) != {} || ctx.converter.toEntity(body.(id := Some(id))).None?)
    ensures id in store && Violations(body.(id := Some(id))) != {} ==>
              r == Reply(BadRequest, ValidationErrors(Violations(body.(id := Some(id)))), store)
    ensures id in store && Violations(body.(id := Some(id))) == {} && ctx.converter.toEntity(body.(id := Some(id))).None? ==>
              r == Reply(BadRequest, Error(ConversionFailed), store)
    ensures r.status == Ok ==> id in store && r.body == Resource(ctx.converter.toDto(store[id]))
  {
    var input := body.(id := Some(id));
    if !ServiceManager.ExistById(store, id) then
      Reply(NotFound, Error(ServiceDoesntExist), store)
    else if Violations(input) != {} then
      Reply(BadRequest, ValidationErrors(Violations(input)), store)
    else
      match ctx.converter.toEntity(input)
      case None => Reply(BadRequest, Error(ConversionFailed), store)
      case Some(service) =>
        var updated := ServiceManager.UpdateService(store, service);
        Reply(Ok, Resource(ctx.converter.toDto(ServiceManager.GetServiceById(updated, id).value)), updated)
  }

  /** `enableService`: 200 and the record is ACTIVO, or 404 and nothing changes. */
  function EnableService(store: Store, id: int): (r: Reply)
    ensures r.status == Ok <==> id in store
    ensures r.status == Ok ==> r.body == NoBody
    ensures r.status == NotFound <==> id !in store
    ensures r.status == NotFound ==> r.store == store && r.body == Error(ServiceDoesntExist)
    ensures r.status == Ok ==> r.store == ServiceManager.EnableServiceById(store, id) && r.store[id].estado == Some(Activo)
  {
    if ServiceManager.ExistById(store, id) then
      Reply(Ok, NoBody, ServiceManager.EnableServiceById(store, id))
    else
      Reply(NotFound, Error(ServiceDoesntExist), store)
  }

  /** `disableService`: 200 and the record is INACTIVO, or 404 and nothing changes. */
  function DisableService(store: Store, id: int): (r: Reply)
    ensures r.status == Ok <==> id in store
    ensures r.status == Ok ==> r.body == NoBody
    ensures r.status == NotFound <==> id !in store
    ensures r.status == NotFound ==> r.store == store && r.body == Error(ServiceDoesntExist)
    ensures r.status == Ok ==> r.store == ServiceManager.DisableServiceById(store, id) && r.store[id].estado == Some(Inactivo)
  {
    if ServiceManager.ExistById(store, id) then
      Reply(Ok, NoBody, ServiceManager.DisableServiceById(store, id))
    else
      Reply(NotFound, Error(ServiceDoesntExist), store)
  }

  /** `deleteService`: 200 and the record is gone, or 404 and nothing changes. */
  function DeleteService(store: Store, id: int): (r: Reply)
    ensures r.status == Ok <==> id in store
    ensures r.status == Ok ==> r.body == NoBody
    ensures r.status == NotFound <==> id !in store
    ensures r.status == NotFound ==> r.store == store && r.body == Error(ServiceDoesntExist)
    ensures r.status == Ok ==> r.store.Keys == store.Keys - {id} && forall k :: k in r.store ==> r.store[k] == store[k]
  {
    if ServiceManager.ExistById(store, id) then
      Reply(Ok, NoBody, ServiceManager.DeleteServiceById(store, id))
    else
      Reply(NotFound, Error(ServiceDoesntExist), store)
  }

  /** Routing a request to its handler. */
  function Dispatch(ctx: Context, store: Store, req: Request): (r: Reply)
    requires req.Post? ==> ctx.newId !in store
    ensures r.status in {Ok, Created, NoContent, BadRequest, NotFound, Conflict}
    ensures r.status == Created <==> req.Post? && r.store != store
    ensures r.store != store ==> r.status == Ok || r.status == Created
  {
    match req
    case ListAll => ListServices(ctx, store)
    case GetById(id) => GetService(ctx, store, id)
    case Post(body) => CreateService(ctx, store, body)
    case Put(id, body) => UpdateService(ctx, store, id, body)
    case PutEnable(id) => EnableService(store, id)
    case PutDisable(id) => DisableService(store, id)
    case DeleteById(id) => DeleteService(store, id)
  }

  // ---------------------------------------------------------------------------
  // Properties of the request handling

  /** The identifier a client puts in a creation request makes no difference. */
  lemma CreateIgnoresClientId(ctx: Context, store: Store, body: ServiceDto, clientId: Option<int>)
    requires ctx.newId !in store
    ensures CreateService(ctx, store, body.(id := clientId)) == CreateService(ctx, store, body)
  {
    ViolationsIgnoreUnannotated(body, body.(id := clientId));
    assert body.(id := clientId).(id := None) == body.(id := None);
  }

  /**
   * A creation request is refused with the list of violations exactly when
   * the submission is invalid, and succeeds exactly when it is valid,
   * convertible and not a duplicate of one of its provider's services.
   */
  lemma CreateAcceptsExactlyValidNewServices(ctx: Context, store: Store, body: ServiceDto)
    requires ctx.newId !in store
    ensures CreateService(ctx, store, body).body.ValidationErrors? <==> !IsValid(body)
    ensures !IsValid(body) ==> CreateService(ctx, store, body).status == BadRequest
                               && CreateService(ctx, store, body).store == store
    ensures CreateService(ctx, store, body).status == Created <==>
              && IsValid(body)
              && ctx.converter.toEntity(body.(id := None)).Some?
              && !ServiceManager.IsDuplicate(store, ctx.converter.toEntity(body.(id := None)).value, ctx.same)
  {
    ValidIffNoViolations(body);
  }

  /** A submission with no workers is refused with a below-minimum report for `cantidadTrabajadores`. */
  lemma ZeroWorkersIsBadRequest(ctx: Context, store: Store, body: ServiceDto)
    requires ctx.newId !in store
    requires body.cantidadTrabajadores == Some(0)
    ensures var r := CreateService(ctx, store, body);
            && r.status == BadRequest
            && r.store == store
            && r.body.ValidationErrors?
            && Violation(CantidadTrabajadores, LessThanMin) in r.body.errors
  {
    WorkersAndPaymentMethods(body);
  }

  /**
   * When the entity's `equals` compares the fields a client chooses,
   * submitting the same request twice creates one record and then answers 409.
   */
  lemma ResubmissionConflicts(ctx: Context, store: Store, body: ServiceDto, later: Instant, nextId: int)
    requires ctx.newId !in store
    requires forall a, b :: ctx.same(a, b) == ServiceManager.SameBusinessFields(a, b)
    requires CreateService(ctx, store, body).status == Created
    requires nextId !in CreateService(ctx, store, body).store
    ensures CreateService(ctx.(now := later, newId := nextId), CreateService(ctx, store, body).store, body).status == Conflict
  {
    var service := ctx.converter.toEntity(body.(id := None)).value;
    ServiceManager.CreatedIsDuplicateOfItsSource(store, service, ctx.now, ctx.newId, ctx.same);
  }

  /**
   * With a converter that keeps the copied fields, a record a 201 stores
   * carries the submission's values, and so meets every rule validation
   * enforced: a description, non-negative prices with the maximum above the
   * minimum, estimated hours, at least one worker and a payment method.
   */
  lemma {:induction false} CreatedRecordKeepsValidatedFields(ctx: Context, store: Store, body: ServiceDto)
    requires ctx.newId !in store
    requires CopiesFields(ctx.converter)
    requires CreateService(ctx, store, body).status == Created
    ensures KeepsFields(body, CreateService(ctx, store, body).store[ctx.newId])
    ensures var s := CreateService(ctx, store, body).store[ctx.newId];
            && s.descripcion.Some? && |s.descripcion.value| > 0
            && s.precioMaximo.Some? && s.precioMinimo.Some?
            && s.precioMaximo.value > s.precioMinimo.value >= 0.0
            && (s.precioPromedio.Some? ==> s.precioPromedio.value >= 0.0)
            && (s.precioInsumos.Some? ==> s.precioInsumos.value >= 0.0)
            && (s.precioAdicionales.Some? ==> s.precioAdicionales.value >= 0.0)
            && s.horasEstimadasEjecucion.Some? && s.horasEstimadasEjecucion.value >= 0.0
            && s.cantidadTrabajadores.Some? && s.cantidadTrabajadores.value >= 1
            && s.mediosDePago.Some? && |s.mediosDePago.value| > 0
  {
    var input := body.(id := None);
    var service := ctx.converter.toEntity(input).value;
    assert KeepsFields(input, service);
    ValidIffNoViolations(body);
  }

  /**
   * When the entity's `equals` compares every field but the identifier, a
   * converted submission without a creation time is never refused as a
   * duplicate of a persisted record.
   */
  lemma UnstampedSubmissionNeverConflicts(ctx: Context, store: Store, body: ServiceDto)
    requires ctx.newId !in store
    requires ServiceManager.WellFormed(store)
    requires forall a, b :: ctx.same(a, b) == ServiceManager.SameButId(a, b)
    requires ctx.converter.toEntity(body.(id := None)).Some? ==>
               ctx.converter.toEntity(body.(id := None)).value.fechaCreacion.None?
    ensures CreateService(ctx, store, body).status != Conflict
  {
    match ctx.converter.toEntity(body.(id := None))
    case None =>
    case Some(service) =>
      ServiceManager.UnstampedCandidateNeverDuplicate(store, service, ctx.same);
  }

  /** An update of an unknown identifier is refused with 404, whatever the body holds. */
  lemma UpdateChecksExistenceFirst(ctx: Context, store: Store, id: int, body: ServiceDto, other: ServiceDto)
    requires id !in store
    ensures UpdateService(ctx, store, id, body) == UpdateService(ctx, store, id, other)
    ensures UpdateService(ctx, store, id, body) == Reply(NotFound, Error(ServiceDoesntExist), store)
  {
  }

  /** The identifier in the path wins over the one in the body. */
  lemma UpdateUsesPathId(ctx: Context, store: Store, id: int, body: ServiceDto, bodyId: Option<int>)
    ensures UpdateService(ctx, store, id, body.(id := bodyId)) == UpdateService(ctx, store, id, body)
  {
    assert body.(id := bodyId).(id := Some(id)) == body.(id := Some(id));
  }

  /** Listing agrees with fetching each record by its identifier. */
  lemma ListAgreesWithGet(ctx: Context, store: Store, id: int)
    requires id in store
    ensures ListServices(ctx, store).body.dtos[id] == GetService(ctx, store, id).body.dto
  {
  }

  /** Every request naming an unknown identifier gets 404 and leaves the store as it was. */
  lemma MissingIdIsNotFound(ctx: Context, store: Store, req: Request)
    requires req.GetById? || req.Put? || req.PutEnable? || req.PutDisable? || req.DeleteById?
    requires req.id !in store
    ensures Dispatch(ctx, store, req) == Reply(NotFound, Error(ServiceDoesntExist), store)
  {
  }

  /** Repeating an enable or a disable request changes nothing more. */
  lemma StatusRequestsIdempotent(ctx: Context, store: Store, id: int)
    ensures var r := Dispatch(ctx, store, PutEnable(id));
            Dispatch(ctx, r.store, PutEnable(id)) == r
    ensures var r := Dispatch(ctx, store, PutDisable(id));
            Dispatch(ctx, r.store, PutDisable(id)) == r
  {
    ServiceManager.EnableIdempotent(store, id);
    ServiceManager.DisableIdempotent(store, id);
  }

  /** Deleting the record a creation request just added gives back the original store. */
  lemma DeleteUndoesCreateRequest(ctx: Context, store: Store, body: ServiceDto)
    requires ctx.newId !in store
    requires Dispatch(ctx, store, Post(body)).status == Created
    ensures Dispatch(ctx, Dispatch(ctx, store, Post(body)).store, DeleteById(ctx.newId)) == Reply(Ok, NoBody, store)
  {
    var service := ctx.converter.toEntity(body.(id := None)).value;
    ServiceManager.DeleteUndoesCreate(store, service, ctx.now, ctx.newId);
  }

  /** No request can break the shape of the persisted records. */
  lemma DispatchPreservesWellFormed(ctx: Context, store: Store, req: Request)
    requires ServiceManager.WellFormed(store)
    requires req.Post? ==> ctx.newId !in store
    ensures ServiceManager.WellFormed(Dispatch(ctx, store, req).store)
  {
    match req
    case Post(body) =>
      if ctx.converter.toEntity(body.(id := None)).Some? {
        var service := ctx.converter.toEntity(body.(id := None)).value;
        ServiceManager.LifecyclePreservesWellFormed(store, service, ctx.now, ctx.newId, 0);
      }
    case _ =>
  }
}

=== FILE: service_dto.dfy ===
/**
 * The `ServiceDto` transfer object: the shape a client submits and receives,
 * its derived average price, and its field-wise `equals` and `hashCode`.
 */
module ServiceDtos {
  import opened Options
  import opened Model
  import opened JavaInts
  import opened Decimals

  datatype ServiceDto = ServiceDto(
    id: Option<int>,
    usuarioPrestador: Option<string>,
    descripcion: Option<string>,
    disponibilidad: Option<string>,
    precioMaximo: Option<real>,
    precioMinimo: Option<real>,
    precioPromedio: Option<real>,
    precioInsumos: Option<real>,
    precioAdicionales: Option<real>,
    horasEstimadasEjecucion: Option<real>,
    cantidadTrabajadores: Option<int>,
    facturaEmitida: bool,
    tipoServicio: Option<string>,
    fechaCreacion: Option<Instant>,
    estado: Option<string>,
    mediosDePago: Option<set<PaymentMethod>>)

  /**
   * A freshly constructed transfer object: every reference is null, the
   * primitive `facturaEmitida` is false and `mediosDePago` starts as an empty set.
   */
  function NewServiceDto(): ServiceDto {
    ServiceDto(None, None, None, None, None, None, None, None, None, None, None,
               false, None, None, None, Some({}))
  }

  // ---------------------------------------------------------------------------
  // Derived average price

  /**
   * `setPrecioPromedio`: the argument is ignored and the average of the two
   * price bounds is stored instead. Both bounds must be present (unboxing a
   * null bound throws).
   */
  function SetPrecioPromedio(d: ServiceDto, precioPromedio: Option<real>): (r: ServiceDto)
    requires d.precioMaximo.Some? && d.precioMinimo.Some?
    ensures r.precioPromedio.Some?
    ensures r.precioPromedio.value * 2.0 == d.precioMaximo.value + d.precioMinimo.value
    ensures r.(precioPromedio := d.precioPromedio) == d
  {
    d.(precioPromedio := Some((d.precioMaximo.value + d.precioMinimo.value) / 2.0))
  }

  /** The value passed to the setter has no influence on the result. */
  lemma AverageIgnoresArgument(d: ServiceDto, a: Option<real>, b: Option<real>)
    requires d.precioMaximo.Some? && d.precioMinimo.Some?
    ensures SetPrecioPromedio(d, a) == SetPrecioPromedio(d, b)
  {
  }

  /**
   * For bounds a valid submission can carry (non-negative, inside the 9/2
   * envelope, maximum above minimum) the average lies strictly between them,
   * is non-negative and stays within nine integer digits.
   */
  lemma AverageOfValidBounds(d: ServiceDto, arg: Option<real>)
    requires d.precioMaximo.Some? && d.precioMinimo.Some?
    requires WithinDigits(d.precioMaximo.value, 9, 2) && WithinDigits(d.precioMinimo.value, 9, 2)
    requires d.precioMinimo.value >= 0.0
    requires d.precioMaximo.value > d.precioMinimo.value
    ensures var avg := SetPrecioPromedio(d, arg).precioPromedio.value;
            && d.precioMinimo.value < avg < d.precioMaximo.value
            && avg >= 0.0
            && avg < Pow10(9) as real
  {
  }

  /**
   * The average of two prices with two fraction digits may need three:
   * 0.01 and 0.00 average to 0.005, which is outside the 9/2 envelope the
   * `precioPromedio` field itself declares.
   */
  lemma AverageCanLeaveFractionEnvelope()
    ensures var d := NewServiceDto().(precioMaximo := Some(0.01), precioMinimo := Some(0.0));
            && WithinDigits(0.01, 9, 2) && WithinDigits(0.0, 9, 2)
            && !WithinDigits(SetPrecioPromedio(d, None).precioPromedio.value, 9, 2)
  {
    var d := NewServiceDto().(precioMaximo := Some(0.01), precioMinimo := Some(0.0));
    assert SetPrecioPromedio(d, None).precioPromedio.value == 0.005;
    assert Pow10(2) == 100;
    assert Scaled(0.005, 2) == 0.5;
    assert Scaled(0.01, 2) == 1.0;
  }

  // ---------------------------------------------------------------------------
  // equals

  /**
   * `equals`: two transfer objects are equal when all sixteen fields are,
   * nulls comparing equal only to nulls. Fields are compared in the order the
   * method checks them.
   */
  predicate Equals(a: ServiceDto, b: ServiceDto) {
    && a.cantidadTrabajadores == b.cantidadTrabajadores
    && a.descripcion == b.descripcion
    && a.disponibilidad == b.disponibilidad
    && a.estado == b.estado
    && a.facturaEmitida == b.facturaEmitida
    && a.fechaCreacion == b.fechaCreacion
    && a.horasEstimadasEjecucion == b.horasEstimadasEjecucion
    && a.id == b.id
    && a.mediosDePago == b.mediosDePago
    && a.precioAdicionales == b.precioAdicionales
    && a.precioInsumos == b.precioInsumos
    && a.precioMaximo == b.precioMaximo
    && a.precioMinimo == b.precioMinimo
    && a.precioPromedio == b.precioPromedio
    && a.tipoServicio == b.tipoServicio
    && a.usuarioPrestador == b.usuarioPrestador
  }

  /** Field-wise equality is exactly value equality of the whole record. */
  lemma EqualsIsValueEquality(a: ServiceDto, b: ServiceDto)
    ensures Equals(a, b) <==> a == b
  {
  }

  /** `equals` is reflexive, symmetric and transitive. */
  lemma EqualsIsEquivalence(a: ServiceDto, b: ServiceDto, c: ServiceDto)
    ensures Equals(a, a)
    ensures Equals(a, b) ==> Equals(b, a)
    ensures Equals(a, b) && Equals(b, c) ==> Equals(a, c)
  {
  }

  // ---------------------------------------------------------------------------
  // hashCode

  /**
   * The `hashCode` of each field's value type, which this model does not
   * define: `Integer`, `String`, `Float`, `DateTime` and the payment-method set.
   */
  datatype Hashers = Hashers(
    ofInteger: int -> int,
    ofString: string -> int,
    ofFloat: real -> int,
    ofDateTime: Instant -> int,
    ofPaymentMethods: set<PaymentMethod> -> int)

  /** A null field contributes 0. */
  function HashOrZero<T>(o: Option<T>, hash: T -> int): int {
    if o.Some? then hash(o.value) else 0
  }

  /** The sixteen field hashes in the order `hashCode` combines them. */
  function FieldHashes(d: ServiceDto, h: Hashers): (r: seq<int>)
    ensures |r| == 16
  {
    [ HashOrZero(d.cantidadTrabajadores, h.ofInteger),
      HashOrZero(d.descripcion, h.ofString),
      HashOrZero(d.disponibilidad, h.ofString),
      HashOrZero(d.estado, h.ofString),
      if d.facturaEmitida then 1231 else 1237,
      HashOrZero(d.fechaCreacion, h.ofDateTime),
      HashOrZero(d.horasEstimadasEjecucion, h.ofFloat),
      HashOrZero(d.id, h.ofInteger),
      HashOrZero(d.mediosDePago, h.ofPaymentMethods),
      HashOrZero(d.precioAdicionales, h.ofFloat),
      HashOrZero(d.precioInsumos, h.ofFloat),
      HashOrZero(d.precioMaximo, h.ofFloat),
      HashOrZero(d.precioMinimo, h.ofFloat),
      HashOrZero(d.precioPromedio, h.ofFloat),
      HashOrZero(d.tipoServicio, h.ofString),
      HashOrZero(d.usuarioPrestador, h.ofString) ]
  }

  /**
   * `hashCode`: starting from 1, each field hash is folded in as
   * `31 * result + hash` in 32-bit arithmetic. The result is a Java `int`
   * equal to the exact polynomial reduced once to 32 bits.
   */
  function HashCode(d: ServiceDto, h: Hashers): (r: int)
    ensures IsInt32(r)
    ensures r == Wrap32(Horner(1, FieldHashes(d, h)))
  {
    assert Wrap32(1) == 1;
    HashFoldIsWrappedHorner(1, FieldHashes(d, h));
    HashFold(1, FieldHashes(d, h))
  }

  /** Equal transfer objects have equal hash codes, whatever the field hashes are. */
  lemma EqualsImpliesEqualHashCode(a: ServiceDto, b: ServiceDto, h: Hashers)
    requires Equals(a, b)
    ensures HashCode(a, h) == HashCode(b, h)
  {
  }
}

=== FILE: service_dto_validation.dfy ===
/**
 * The declarative constraints of `ServiceDto` and the violations Bean
 * Validation reports for them. Every annotated field is checked and every
 * failing constraint is reported; nothing stops at the first failure.
 */
module ServiceDtoValidation {
  import opened Options
  import opened Model
  import opened Decimals
  import opened ServiceDtos

  /** The sixteen fields of `ServiceDto`. */
  datatype Field =
    | Id | UsuarioPrestador | Descripcion | Disponibilidad
    | PrecioMaximo | PrecioMinimo | PrecioPromedio | PrecioInsumos | PrecioAdicionales
    | HorasEstimadasEjecucion | CantidadTrabajadores | FacturaEmitida | TipoServicio
    | FechaCreacion | Estado | MediosDePago

  /** A field's value as a validator sees it: null, or a value of the field's type. */
  datatype Value =
    | Null
    | Text(s: string)
    | Decimal(x: real)
    | Integer(n: int)
    | Flag(b: bool)
    | Timestamp(t: Instant)
    | Methods(m: set<PaymentMethod>)

  function TextValue(o: Option<string>): Value {
    if o.Some? then Text(o.value) else Null
  }

  function DecimalValue(o: Option<real>): Value {
    if o.Some? then Decimal(o.value) else Null
  }

  function IntegerValue(o: Option<int>): Value {
    if o.Some? then Integer(o.value) else Null
  }

  function Get(d: ServiceDto, f: Field): Value {
    match f
    case Id => IntegerValue(d.id)
    case UsuarioPrestador => TextValue(d.usuarioPrestador)
    case Descripcion => TextValue(d.descripcion)
    case Disponibilidad => TextValue(d.disponibilidad)
    case PrecioMaximo => DecimalValue(d.precioMaximo)
    case PrecioMinimo => DecimalValue(d.precioMinimo)
    case PrecioPromedio => DecimalValue(d.precioPromedio)
    case PrecioInsumos => DecimalValue(d.precioInsumos)
    case PrecioAdicionales => DecimalValue(d.precioAdicionales)
    case HorasEstimadasEjecucion => DecimalValue(d.horasEstimadasEjecucion)
    case CantidadTrabajadores => IntegerValue(d.cantidadTrabajadores)
    case FacturaEmitida => Flag(d.facturaEmitida)
    case TipoServicio => TextValue(d.tipoServicio)
    case FechaCreacion => if d.fechaCreacion.Some? then Timestamp(d.fechaCreacion.value) else Null
    case Estado => TextValue(d.estado)
    case MediosDePago => if d.mediosDePago.Some? then Methods(d.mediosDePago.value) else Null
  }

  /** The field-level constraint annotations. */
  datatype Constraint =
    | NotNull
    | NotEmpty
    | Digits(integer: nat, fraction: nat)
    | Min(value: int)

  /** The annotations each field carries, in declaration order. */
  function Annotations(f: Field): seq<Constraint> {
    match f
    case UsuarioPrestador => [NotEmpty]
    case Descripcion => [NotEmpty]
    case PrecioMaximo => [NotNull, Digits(9, 2), Min(0)]
    case PrecioMinimo => [NotNull, Digits(9, 2), Min(0)]
    case PrecioPromedio => [Digits(9, 2), Min(0)]
    case PrecioInsumos => [Digits(9, 2), Min(0)]
    case PrecioAdicionales => [Digits(9, 2), Min(0)]
    case HorasEstimadasEjecucion => [NotNull, Digits(5, 2), Min(0)]
    case CantidadTrabajadores => [NotNull, Min(1)]
    case FacturaEmitida => [NotNull]
    case TipoServicio => [NotEmpty]
    case MediosDePago => [NotEmpty]
    case Id | Disponibilidad | FechaCreacion | Estado => []
  }

  /**
   * Bean Validation semantics of one constraint on one value. `@NotEmpty`
   * rejects null and a zero-length string or collection; `@Digits` and `@Min`
   * accept null and judge only present numbers.
   */
  predicate Satisfies(v: Value, c: Constraint) {
    match c
    case NotNull => !v.Null?
    case NotEmpty =>
      (match v
       case Text(s) => |s| > 0
       case Methods(m) => |m| > 0
       case _ => false)
    case Digits(integer, fraction) =>
      (match v
       case Decimal(x) => WithinDigits(x, integer, fraction)
       case Integer(n) => WithinDigits(n as real, integer, fraction)
       case _ => true)
    case Min(m) =>
      (match v
       case Decimal(x) => x >= m as real
       case Integer(n) => n >= m
       case _ => true)
  }

  /** The message a failed check reports, named after its message key suffix. */
  datatype Code =
    | NotEmptyCode        // *.not.empty
    | NotNullCode         // *.not.null
    | OutOfBoundaries     // *.out.of.boundaries
    | LessThanMin         // *.less.than.min
    | LessThanPrecioMinimo  // precioMaximo.less.than.precioMinimo

  datatype Violation = Violation(field: Field, code: Code)

  function CodeOf(c: Constraint): Code {
    match c
    case NotNull => NotNullCode
    case NotEmpty => NotEmptyCode
    case Digits(_, _) => OutOfBoundaries
    case Min(_) => LessThanMin
  }

  /** The violations a value of field f gets from the annotations cs. */
  function AnnotationViolations(val: Value, f: Field, cs: seq<Constraint>): (r: set<Violation>)
    ensures forall v :: v in r ==> v.field == f
  {
    set c | c in cs && !Satisfies(val, c) :: Violation(f, CodeOf(c))
  }

  /** Every violated annotation of field f. */
  function FieldViolations(d: ServiceDto, f: Field): (r: set<Violation>)
    ensures forall v :: v in r ==> v.field == f
  {
    AnnotationViolations(Get(d, f), f, Annotations(f))
  }

  /**
   * The class-level `@GreaterThan(valueOf = "precioMaximo", greaterThanValueOf = "precioMinimo")`.
   * It judges only a pair of present bounds; a missing bound is reported by its own `@NotNull`.
   */
  function ClassViolations(d: ServiceDto): set<Violation> {
    if d.precioMaximo.Some? && d.precioMinimo.Some? && d.precioMaximo.value <= d.precioMinimo.value
    then {Violation(PrecioMaximo, LessThanPrecioMinimo)}
    else {}
  }

  /** Every violation of the submission, field-level and class-level together. */
  function Violations(d: ServiceDto): set<Violation> {
    ClassViolations(d) + set f: Field, v | v in FieldViolations(d, f) :: v
  }

  // ---------------------------------------------------------------------------
  // The same rules stated directly over the record

  predicate NonEmptyText(o: Option<string>) {
    o.Some? && |o.value| > 0
  }

  /** A present decimal inside its digit envelope and not below zero. */
  predicate GoodDecimal(x: real, integer: nat) {
    WithinDigits(x, integer, 2) && x >= 0.0
  }

  predicate OptionalPrice(o: Option<real>) {
    o.None? || GoodDecimal(o.value, 9)
  }

  /** What a valid submission is, written field by field. */
  predicate IsValid(d: ServiceDto) {
    && NonEmptyText(d.usuarioPrestador)
    && NonEmptyText(d.descripcion)
    && NonEmptyText(d.tipoServicio)
    && d.precioMaximo.Some? && GoodDecimal(d.precioMaximo.value, 9)
    && d.precioMinimo.Some? && GoodDecimal(d.precioMinimo.value, 9)
    && d.precioMaximo.value > d.precioMinimo.value
    && OptionalPrice(d.precioPromedio)
    && OptionalPrice(d.precioInsumos)
    && OptionalPrice(d.precioAdicionales)
    && d.horasEstimadasEjecucion.Some? && GoodDecimal(d.horasEstimadasEjecucion.value, 5)
    && d.cantidadTrabajadores.Some? && d.cantidadTrabajadores.value >= 1
    && d.mediosDePago.Some? && |d.mediosDePago.value| > 0
  }

  // ---------------------------------------------------------------------------
  // The table-driven violations agree with the direct statement

  /** A violation of field f can only come from f's own annotations or from the class-level rule. */
  lemma ViolationOrigin(d: ServiceDto, v: Violation)
    ensures v in Violations(d) <==> v in ClassViolations(d) || v in FieldViolations(d, v.field)
  {
  }

  /** The violations of one field are the codes of its unsatisfied annotations. */
  lemma AnnotationViolationsMembership(val: Value, f: Field, cs: seq<Constraint>, code: Code)
    ensures Violation(f, code) in AnnotationViolations(val, f, cs)
            <==> exists i :: 0 <= i < |cs| && CodeOf(cs[i]) == code && !Satisfies(val, cs[i])
  {
    if Violation(f, code) in AnnotationViolations(val, f, cs) {
      var c :| c in cs && !Satisfies(val, c) && Violation(f, CodeOf(c)) == Violation(f, code);
      var i :| 0 <= i < |cs| && cs[i] == c;
    }
  }

  /** A `@NotEmpty` string field is reported exactly when null or empty. */
  lemma NotEmptyText(d: ServiceDto, f: Field, o: Option<string>)
    requires Annotations(f) == [NotEmpty]
    requires Get(d, f) == TextValue(o)
    ensures Violation(f, NotEmptyCode) in Violations(d) <==> !NonEmptyText(o)
  {
    var v := Violation(f, NotEmptyCode);
    ViolationOrigin(d, v);
    AnnotationViolationsMembership(Get(d, f), f, Annotations(f), NotEmptyCode);
    assert Annotations(f)[0] == NotEmpty;
    assert Satisfies(TextValue(o), NotEmpty) <==> NonEmptyText(o);
  }

  /** `usuarioPrestador`, `descripcion` and `tipoServicio` are reported exactly when null or empty. */
  lemma RequiredTextFields(d: ServiceDto)
    ensures Violation(UsuarioPrestador, NotEmptyCode) in Violations(d) <==> !NonEmptyText(d.usuarioPrestador)
    ensures Violation(Descripcion, NotEmptyCode) in Violations(d) <==> !NonEmptyText(d.descripcion)
    ensures Violation(TipoServicio, NotEmptyCode) in Violations(d) <==> !NonEmptyText(d.tipoServicio)
  {
    NotEmptyText(d, UsuarioPrestador, d.usuarioPrestador);
    NotEmptyText(d, Descripcion, d.descripcion);
    NotEmptyText(d, TipoServicio, d.tipoServicio);
  }

  /** Which annotation a field-level violation came from. */
  lemma FieldViolationSource(d: ServiceDto, f: Field, v: Violation)
    requires v in FieldViolations(d, f)
    ensures v.field == f
    ensures exists i :: 0 <= i < |Annotations(f)| && CodeOf(Annotations(f)[i]) == v.code
                        && !Satisfies(Get(d, f), Annotations(f)[i])
  {
    AnnotationViolationsMembership(Get(d, f), f, Annotations(f), v.code);
  }

  /**
   * A required decimal (`@NotNull @Digits(integer, 2) @Min(0)`) is reported as
   * missing exactly when null, as out of bounds exactly when present outside
   * its envelope, and as below minimum exactly when present and negative.
   */
  lemma RequiredDecimal(d: ServiceDto, f: Field, o: Option<real>, integer: nat)
    requires Annotations(f) == [NotNull, Digits(integer, 2), Min(0)]
    requires Get(d, f) == DecimalValue(o)
    ensures Violation(f, NotNullCode) in Violations(d) <==> o.None?
    ensures Violation(f, OutOfBoundaries) in Violations(d) <==> o.Some? && !WithinDigits(o.value, integer, 2)
    ensures Violation(f, LessThanMin) in Violations(d) <==> o.Some? && o.value < 0.0
  {
    ViolationOrigin(d, Violation(f, NotNullCode));
    ViolationOrigin(d, Violation(f, OutOfBoundaries));
    ViolationOrigin(d, Violation(f, LessThanMin));
    AnnotationViolationsMembership(Get(d, f), f, Annotations(f), NotNullCode);
    AnnotationViolationsMembership(Get(d, f), f, Annotations(f), OutOfBoundaries);
    AnnotationViolationsMembership(Get(d, f), f, Annotations(f), LessThanMin);
    assert Annotations(f)[0] == NotNull;
    assert Annotations(f)[1] == Digits(integer, 2);
    assert Annotations(f)[2] == Min(0);
  }

  /** `precioMaximo`, `precioMinimo` (9/2 digits) and `horasEstimadasEjecucion` (5/2 digits) are required decimals. */
  lemma RequiredDecimalFields(d: ServiceDto)
    ensures Violation(PrecioMaximo, NotNullCode) in Violations(d) <==> d.precioMaximo.None?
    ensures Violation(PrecioMaximo, OutOfBoundaries) in Violations(d)
            <==> d.precioMaximo.Some? && !WithinDigits(d.precioMaximo.value, 9, 2)
    ensures Violation(PrecioMaximo, LessThanMin) in Violations(d)
            <==> d.precioMaximo.Some? && d.precioMaximo.value < 0.0
    ensures Violation(PrecioMinimo, NotNullCode) in Violations(d) <==> d.precioMinimo.None?
    ensures Violation(PrecioMinimo, OutOfBoundaries) in Violations(d)
            <==> d.precioMinimo.Some? && !WithinDigits(d.precioMinimo.value, 9, 2)
    ensures Violation(PrecioMinimo, LessThanMin) in Violations(d)
            <==> d.precioMinimo.Some? && d.precioMinimo.value < 0.0
    ensures Violation(HorasEstimadasEjecucion, NotNullCode) in Violations(d) <==> d.horasEstimadasEjecucion.None?
    ensures Violation(HorasEstimadasEjecucion, OutOfBoundaries) in Violations(d)
            <==> d.horasEstimadasEjecucion.Some? && !WithinDigits(d.horasEstimadasEjecucion.value, 5, 2)
    ensures Violation(HorasEstimadasEjecucion, LessThanMin) in Violations(d)
            <==> d.horasEstimadasEjecucion.Some? && d.horasEstimadasEjecucion.value < 0.0
  {
    RequiredDecimal(d, PrecioMaximo, d.precioMaximo, 9);
    RequiredDecimal(d, PrecioMinimo, d.precioMinimo, 9);
    RequiredDecimal(d, HorasEstimadasEjecucion, d.horasEstimadasEjecucion, 5);
  }

  /**
   * An optional price (`@Digits(9, 2) @Min(0)` without `@NotNull`) produces no
   * violation at all when absent; when present it is judged like a required one.
   */
  lemma OptionalDecimal(d: ServiceDto, f: Field, o: Option<real>)
    requires Annotations(f) == [Digits(9, 2), Min(0)]
    requires Get(d, f) == DecimalValue(o)
    ensures o.None? ==> forall v :: v in Violations(d) ==> v.field != f
    ensures Violation(f, NotNullCode) !in Violations(d)
    ensures Violation(f, OutOfBoundaries) in Violations(d) <==> o.Some? && !WithinDigits(o.value, 9, 2)
    ensures Violation(f, LessThanMin) in Violations(d) <==> o.Some? && o.value < 0.0
  {
    ViolationOrigin(d, Violation(f, NotNullCode));
    ViolationOrigin(d, Violation(f, OutOfBoundaries));
    ViolationOrigin(d, Violation(f, LessThanMin));
    AnnotationViolationsMembership(Get(d, f), f, Annotations(f), NotNullCode);
    AnnotationViolationsMembership(Get(d, f), f, Annotations(f), OutOfBoundaries);
    AnnotationViolationsMembership(Get(d, f), f, Annotations(f), LessThanMin);
    assert Annotations(f)[0] == Digits(9, 2);
    assert Annotations(f)[1] == Min(0);
    if o.None? {
      forall v | v in Violations(d) ensures v.field != f {
        ViolationOrigin(d, v);
        if v.field == f && v in FieldViolations(d, f) {
          FieldViolationSource(d, f, v);
        }
      }
    }
  }

  /** `precioPromedio`, `precioInsumos` and `precioAdicionales` are optional prices. */
  lemma OptionalPriceFields(d: ServiceDto)
    ensures d.precioPromedio.None? ==> forall v :: v in Violations(d) ==> v.field != PrecioPromedio
    ensures d.precioInsumos.None? ==> forall v :: v in Violations(d) ==> v.field != PrecioInsumos
    ensures d.precioAdicionales.None? ==> forall v :: v in Violations(d) ==> v.field != PrecioAdicionales
    ensures Violation(PrecioPromedio, OutOfBoundaries) in Violations(d)
            <==> d.precioPromedio.Some? && !WithinDigits(d.precioPromedio.value, 9, 2)
    ensures Violation(PrecioPromedio, LessThanMin) in Violations(d)
            <==> d.precioPromedio.Some? && d.precioPromedio.value < 0.0
    ensures Violation(PrecioInsumos, OutOfBoundaries) in Violations(d)
            <==> d.precioInsumos.Some? && !WithinDigits(d.precioInsumos.value, 9, 2)
    ensures Violation(PrecioInsumos, LessThanMin) in Violations(d)
            <==> d.precioInsumos.Some? && d.precioInsumos.value < 0.0
    ensures Violation(PrecioAdicionales, OutOfBoundaries) in Violations(d)
            <==> d.precioAdicionales.Some? && !WithinDigits(d.precioAdicionales.value, 9, 2)
    ensures Violation(PrecioAdicionales, LessThanMin) in Violations(d)
            <==> d.precioAdicionales.Some? && d.precioAdicionales.value < 0.0
  {
    OptionalDecimal(d, PrecioPromedio, d.precioPromedio);
    OptionalDecimal(d, PrecioInsumos, d.precioInsumos);
    OptionalDecimal(d, PrecioAdicionales, d.precioAdicionales);
  }

  /** The class-level rule fires exactly when both bounds are present and the maximum does not exceed the minimum. */
  lemma PriceBoundsOrder(d: ServiceDto)
    ensures Violation(PrecioMaximo, LessThanPrecioMinimo) in Violations(d)
            <==> d.precioMaximo.Some? && d.precioMinimo.Some? && d.precioMaximo.value <= d.precioMinimo.value
  {
    var v := Violation(PrecioMaximo, LessThanPrecioMinimo);
    ViolationOrigin(d, v);
    if v in FieldViolations(d, PrecioMaximo) {
      FieldViolationSource(d, PrecioMaximo, v);
    }
  }

  /**
   * `cantidadTrabajadores` is reported when null or below one; `mediosDePago`
   * when null or empty, which includes the empty set a fresh object starts with.
   */
  lemma WorkersAndPaymentMethods(d: ServiceDto)
    ensures Violation(CantidadTrabajadores, NotNullCode) in Violations(d) <==> d.cantidadTrabajadores.None?
    ensures Violation(CantidadTrabajadores, LessThanMin) in Violations(d)
            <==> d.cantidadTrabajadores.Some? && d.cantidadTrabajadores.value < 1
    ensures Violation(MediosDePago, NotEmptyCode) in Violations(d)
            <==> d.mediosDePago.None? || d.mediosDePago.value == {}
  {
    var f := CantidadTrabajadores;
    ViolationOrigin(d, Violation(f, NotNullCode));
    ViolationOrigin(d, Violation(f, LessThanMin));
    AnnotationViolationsMembership(Get(d, f), f, Annotations(f), NotNullCode);
    AnnotationViolationsMembership(Get(d, f), f, Annotations(f), LessThanMin);
    assert Annotations(f)[0] == NotNull;
    assert Annotations(f)[1] == Min(1);
    var g := MediosDePago;
    ViolationOrigin(d, Violation(g, NotEmptyCode));
    AnnotationViolationsMembership(Get(d, g), g, Annotations(g), NotEmptyCode);
    assert Annotations(g)[0] == NotEmpty;
  }

  /**
   * `facturaEmitida` is a primitive boolean, so its `@NotNull` can never fail:
   * no violation is ever reported for it.
   */
  lemma FacturaEmitidaNeverViolated(d: ServiceDto, v: Violation)
    requires v in Violations(d)
    ensures v.field != FacturaEmitida
  {
    ViolationOrigin(d, v);
    if v.field == FacturaEmitida && v in FieldViolations(d, FacturaEmitida) {
      FieldViolationSource(d, FacturaEmitida, v);
    }
  }

  /** A valid submission leaves every field's annotations satisfied. */
  lemma ValidFieldIsClean(d: ServiceDto, f: Field, v: Violation)
    requires IsValid(d)
    ensures v !in FieldViolations(d, f)
  {
    if v in FieldViolations(d, f) {
      FieldViolationSource(d, f, v);
    }
  }

  /**
   * The violation set is empty exactly when the submission meets the
   * field-by-field statement of validity.
   */
  lemma ValidIffNoViolations(d: ServiceDto)
    ensures Violations(d) == {} <==> IsValid(d)
  {
    if IsValid(d) {
      forall v | v in Violations(d) ensures false {
        ViolationOrigin(d, v);
        ValidFieldIsClean(d, v.field, v);
      }
    }
    if Violations(d) == {} {
      RequiredTextFields(d);
      RequiredDecimalFields(d);
      OptionalPriceFields(d);
      PriceBoundsOrder(d);
      WorkersAndPaymentMethods(d);
    }
  }

  /**
   * Fields without annotations (`id`, `disponibilidad`, `fechaCreacion`,
   * `estado`) never influence validation.
   */
  lemma ViolationsIgnoreUnannotated(d: ServiceDto, e: ServiceDto)
    requires e == d.(id := e.id, disponibilidad := e.disponibilidad, fechaCreacion := e.fechaCreacion, estado := e.estado)
    ensures Violations(d) == Violations(e)
  {
    forall f: Field ensures FieldViolations(d, f) == FieldViolations(e, f) {
      if Annotations(f) != [] {
        assert Get(d, f) == Get(e, f);
      }
    }
  }

  /** A freshly constructed transfer object is invalid; among other things its empty `mediosDePago` is reported. */
  lemma NewServiceDtoIsInvalid()
    ensures Violation(MediosDePago, NotEmptyCode) in Violations(NewServiceDto())
    ensures !IsValid(NewServiceDto())
  {
    WorkersAndPaymentMethods(NewServiceDto());
    ValidIffNoViolations(NewServiceDto());
  }

  // ---------------------------------------------------------------------------
  // Collecting the violations field by field

  /** The fields in declaration order. */
  const AllFields: seq<Field> :=
    [ Id, UsuarioPrestador, Descripcion, Disponibilidad,
      PrecioMaximo, PrecioMinimo, PrecioPromedio, PrecioInsumos, PrecioAdicionales,
      HorasEstimadasEjecucion, CantidadTrabajadores, FacturaEmitida, TipoServicio,
      FechaCreacion, Estado, MediosDePago ]

  lemma AllFieldsComplete(f: Field)
    ensures f in AllFields
  {
  }

  /**
   * Validation as the binding result sees it: every field's annotations are
   * checked in declaration order, then the class-level rule, and every failure
   * is appended; nothing stops at the first failure. The list holds exactly
   * the violations of the submission.
   */
  method Validate(d: ServiceDto) returns (errors: seq<Violation>)
    ensures forall v :: v in errors <==> v in Violations(d)
  {
    errors := [];
    var i := 0;
    while i < |AllFields|
      invariant 0 <= i <= |AllFields|
      invariant forall v :: v in errors <==> v.field in AllFields[..i] && v in FieldViolations(d, v.field)
    {
      var f := AllFields[i];
      var cs := Annotations(f);
      var j := 0;
      while j < |cs|
        invariant 0 <= j <= |cs|
        invariant forall v :: v in errors <==>
                    || (v.field in AllFields[..i] && v in FieldViolations(d, v.field))
                    || (v.field == f && v in AnnotationViolations(Get(d, f), f, cs[..j]))
      {
        if !Satisfies(Get(d, f), cs[j]) {
          errors := errors + [Violation(f, CodeOf(cs[j]))];
        }
        assert cs[..j + 1] == cs[..j] + [cs[j]];
        j := j + 1;
      }
      assert cs[..j] == cs;
      assert AllFields[..i + 1] == AllFields[..i] + [f];
      i := i + 1;
    }
    errors := errors + ClassViolationList(d);
    forall v ensures v in errors <==> v in Violations(d) {
      AllFieldsComplete(v.field);
      ViolationOrigin(d, v);
      assert AllFields[..i] == AllFields;
    }
  }

  function ClassViolationList(d: ServiceDto): (r: seq<Violation>)
    ensures forall v :: v in r <==> v in ClassViolations(d)
  {
    if ClassViolations(d) == {} then [] else [Violation(PrecioMaximo, LessThanPrecioMinimo)]
  }
}

=== FILE: service_manager.dfy ===
/**
 * The service layer for service records (`ServiceManagerImpl`), over a store
 * of records keyed by identifier. The store stands for the persistence layer:
 * a lookup by key either finds one record or none.
 */
module ServiceManager {
  import opened Options
  import opened Model

  type Store = map<int, Service>

  /**
   * What every record the service layer persists looks like: keyed by its own
   * identifier, stamped with a creation time, carrying a status, and without
   * an image (images are only loaded by a dedicated operation this layer
   * leaves empty).
   */
  predicate Persisted(k: int, s: Service) {
    && s.id == Some(k)
    && s.fechaCreacion.Some?
    && s.estado.Some?
    && s.imagen.None?
  }

  predicate WellFormed(store: Store) {
    forall k :: k in store ==> Persisted(k, store[k])
  }

  // ---------------------------------------------------------------------------
  // Lookups

  /** `getServiceById`: the record stored under id, or null. */
  function GetServiceById(store: Store, id: int): (r: Option<Service>)
    ensures r.Some? <==> id in store
    ensures r.Some? ==> r.value == store[id]
  {
    if id in store then Some(store[id]) else None
  }

  /** `exist(Integer)`: the lookup by id finds a record. */
  predicate ExistById(store: Store, id: int)
    ensures ExistById(store, id) <==> GetServiceById(store, id).Some?
  {
    id in store
  }

  // ---------------------------------------------------------------------------
  // Lifecycle

  /**
   * `createService`: the record is persisted with status ACTIVO, no image and
   * the supplied creation time; the identifier is the one the database
   * generates, which is not yet in use.
   */
  function CreateService(store: Store, s: Service, now: Instant, newId: int): (r: Store)
    requires newId !in store
    ensures r.Keys == store.Keys + {newId}
    ensures forall k :: k in store ==> r[k] == store[k]
    ensures r[newId].estado == Some(Activo)
    ensures r[newId].imagen.None?
    ensures r[newId].fechaCreacion == Some(now)
    ensures r[newId].(id := s.id, fechaCreacion := s.fechaCreacion, estado := s.estado, imagen := s.imagen) == s
    ensures Persisted(newId, r[newId])
  {
    store[newId := s.(id := Some(newId), fechaCreacion := Some(now), imagen := None, estado := Some(Activo))]
  }

  /** `updateService` has an empty body: it changes nothing. */
  function UpdateService(store: Store, s: Service): (r: Store)
    ensures r == store
  {
    store
  }

  /** The record under id with its status set, if there is one; the store unchanged otherwise. */
  function SetStatus(store: Store, id: int, status: Status): (r: Store)
    ensures r.Keys == store.Keys
    ensures id in store ==> r[id].estado == Some(status) && r[id].(estado := store[id].estado) == store[id]
    ensures forall k :: k in store && k != id ==> r[k] == store[k]
  {
    if id in store then store[id := store[id].(estado := Some(status))] else store
  }

  /**
   * `enableServiceById`: a stored record ends up ACTIVO; nothing else changes,
   * and a missing id changes nothing at all.
   */
  function EnableServiceById(store: Store, id: int): (r: Store)
    ensures r.Keys == store.Keys
    ensures id in store ==> r[id].estado == Some(Activo) && r[id].(estado := store[id].estado) == store[id]
    ensures forall k :: k in store && k != id ==> r[k] == store[k]
    ensures id !in store ==> r == store
  {
    SetStatus(store, id, Activo)
  }

  /**
   * `disableServiceById`: a stored record ends up INACTIVO; nothing else
   * changes, and a missing id changes nothing at all.
   */
  function DisableServiceById(store: Store, id: int): (r: Store)
    ensures r.Keys == store.Keys
    ensures id in store ==> r[id].estado == Some(Inactivo) && r[id].(estado := store[id].estado) == store[id]
    ensures forall k :: k in store && k != id ==> r[k] == store[k]
    ensures id !in store ==> r == store
  {
    SetStatus(store, id, Inactivo)
  }

  /** `deleteServiceById`: the record under id is gone and every other record is untouched. */
  function DeleteServiceById(store: Store, id: int): (r: Store)
    ensures !ExistById(r, id)
    ensures forall k :: k != id ==> (ExistById(r, k) <==> ExistById(store, k))
    ensures forall k :: k in r ==> k in store && r[k] == store[k]
  {
    store - {id}
  }

  // ---------------------------------------------------------------------------
  // Properties of the lifecycle operations

  /** Enabling twice is enabling once. */
  lemma EnableIdempotent(store: Store, id: int)
    ensures EnableServiceById(EnableServiceById(store, id), id) == EnableServiceById(store, id)
  {
  }

  /** Disabling twice is disabling once. */
  lemma DisableIdempotent(store: Store, id: int)
    ensures DisableServiceById(DisableServiceById(store, id), id) == DisableServiceById(store, id)
  {
  }

  /** Disabling and re-enabling an ACTIVO record gives back the original store. */
  lemma DisableThenEnableRestores(store: Store, id: int)
    requires id in store ==> store[id].estado == Some(Activo)
    ensures EnableServiceById(DisableServiceById(store, id), id) == store
  {
    if id in store {
      var r := EnableServiceById(DisableServiceById(store, id), id);
      assert r.Keys == store.Keys;
      assert r[id] == store[id];
    }
  }

  /** Deleting a record just created gives back the store it was created in. */
  lemma DeleteUndoesCreate(store: Store, s: Service, now: Instant, newId: int)
    requires newId !in store
    ensures DeleteServiceById(CreateService(store, s, now, newId), newId) == store
  {
    var r := DeleteServiceById(CreateService(store, s, now, newId), newId);
    assert r.Keys == store.Keys;
  }

  /** Every lifecycle operation keeps the store well formed. */
  lemma LifecyclePreservesWellFormed(store: Store, s: Service, now: Instant, newId: int, id: int)
    requires WellFormed(store)
    ensures newId !in store ==> WellFormed(CreateService(store, s, now, newId))
    ensures WellFormed(UpdateService(store, s))
    ensures WellFormed(EnableServiceById(store, id))
    ensures WellFormed(DisableServiceById(store, id))
    ensures WellFormed(DeleteServiceById(store, id))
  {
  }

  // ---------------------------------------------------------------------------
  // Duplicate detection

  /**
   * Identifiers of the records that belong to the given provider. The
   * provider's service collection (`User.getServicios()`) is taken to be
   * exactly these records.
   */
  function OwnedBy(store: Store, owner: UserId): set<int> {
    set k | k in store && store[k].usuarioPrestador == owner
  }

  /** The records of the given provider: the provider's own service collection. */
  function OwnerServices(store: Store, owner: UserId): set<Service> {
    set k | k in OwnedBy(store, owner) :: store[k]
  }

  /**
   * How a provider's collection follows the lifecycle: a creation adds the new
   * identifier to its owner's collection only, a deletion removes the
   * identifier, and enabling, disabling or updating leave every collection as
   * it was.
   */
  lemma {:induction false} OwnedByAcrossLifecycle(store: Store, s: Service, now: Instant, newId: int, id: int, p: UserId)
    ensures newId !in store ==>
              OwnedBy(CreateService(store, s, now, newId), p)
                == OwnedBy(store, p) + (if s.usuarioPrestador == p then {newId} else {})
    ensures OwnedBy(DeleteServiceById(store, id), p) == OwnedBy(store, p) - {id}
    ensures OwnedBy(EnableServiceById(store, id), p) == OwnedBy(store, p)
    ensures OwnedBy(DisableServiceById(store, id), p) == OwnedBy(store, p)
    ensures OwnedBy(UpdateService(store, s), p) == OwnedBy(store, p)
  {
    if newId !in store {
      OwnedByAfterCreate(store, s, now, newId, p);
    }
    OwnedByAfterDelete(store, id, p);
    OwnedByAfterStatus(store, id, Activo, p);
    OwnedByAfterStatus(store, id, Inactivo, p);
  }

  lemma OwnedByAfterCreate(store: Store, s: Service, now: Instant, newId: int, p: UserId)
    requires newId !in store
    ensures OwnedBy(CreateService(store, s, now, newId), p)
              == OwnedBy(store, p) + (if s.usuarioPrestador == p then {newId} else {})
  {
    var c := CreateService(store, s, now, newId);
    assert c[newId].usuarioPrestador == s.usuarioPrestador;
  }

  lemma OwnedByAfterDelete(store: Store, id: int, p: UserId)
    ensures OwnedBy(DeleteServiceById(store, id), p) == OwnedBy(store, p) - {id}
  {
  }

  lemma OwnedByAfterStatus(store: Store, id: int, status: Status, p: UserId)
    ensures OwnedBy(SetStatus(store, id, status), p) == OwnedBy(store, p)
  {
    var e := SetStatus(store, id, status);
    assert forall k :: k in e ==> e[k].usuarioPrestador == store[k].usuarioPrestador;
  }

  /**
   * `exist(Service)`: some record of the candidate's own provider equals the
   * candidate under the entity's `equals`, which is passed in as `same`.
   */
  predicate IsDuplicate(store: Store, candidate: Service, same: (Service, Service) -> bool) {
    exists k :: k in OwnedBy(store, candidate.usuarioPrestador) && same(candidate, store[k])
  }

  /**
   * The loop of `exist(Service)`: walk the provider's service collection, in
   * whatever order it comes, and answer true at the first record the
   * candidate equals.
   */
  method Exist(store: Store, candidate: Service, same: (Service, Service) -> bool, servicios: seq<Service>)
    returns (found: bool)
    requires forall s :: s in servicios <==> s in OwnerServices(store, candidate.usuarioPrestador)
    ensures found <==> IsDuplicate(store, candidate, same)
  {
    var i := 0;
    while i < |servicios|
      invariant 0 <= i <= |servicios|
      invariant forall j :: 0 <= j < i ==> !same(candidate, servicios[j])
    {
      if same(candidate, servicios[i]) {
        assert servicios[i] in OwnerServices(store, candidate.usuarioPrestador);
        return true;
      }
      i := i + 1;
    }
    forall k | k in OwnedBy(store, candidate.usuarioPrestador)
      ensures !same(candidate, store[k])
    {
      assert store[k] in OwnerServices(store, candidate.usuarioPrestador);
      var j :| 0 <= j < |servicios| && servicios[j] == store[k];
    }
    return false;
  }

  /** Records of other providers never make a candidate a duplicate. */
  lemma OtherProvidersIrrelevant(store: Store, candidate: Service, same: (Service, Service) -> bool, k: int, s: Service)
    requires s.usuarioPrestador != candidate.usuarioPrestador
    ensures IsDuplicate(store[k := s], candidate, same) <==> IsDuplicate(store - {k}, candidate, same)
  {
    var a := OwnedBy(store[k := s], candidate.usuarioPrestador);
    var b := OwnedBy(store - {k}, candidate.usuarioPrestador);
    assert a == b;
  }

  // ---------------------------------------------------------------------------
  // Two readings of the entity's `equals`

  /** The fields a client chooses, with those the service layer assigns (identifier, timestamp, status, image) blanked out. */
  function BusinessFields(s: Service): Service {
    s.(id := None, fechaCreacion := None, estado := None, imagen := None)
  }

  /** Equality on the fields the client chooses. */
  predicate SameBusinessFields(a: Service, b: Service) {
    BusinessFields(a) == BusinessFields(b)
  }

  /** Equality on every field except the identifier. */
  predicate SameButId(a: Service, b: Service) {
    a.(id := None) == b.(id := None)
  }

  /**
   * Under business-field equality, a service just created is a duplicate of
   * the candidate it was created from: submitting it again is refused.
   */
  lemma CreatedIsDuplicateOfItsSource(store: Store, s: Service, now: Instant, newId: int, same: (Service, Service) -> bool)
    requires newId !in store
    requires forall a, b :: same(a, b) == SameBusinessFields(a, b)
    ensures IsDuplicate(CreateService(store, s, now, newId), s, same)
  {
    var r := CreateService(store, s, now, newId);
    assert BusinessFields(r[newId]) == BusinessFields(s);
    assert newId in OwnedBy(r, s.usuarioPrestador);
  }

  /**
   * Under equality on every field but the identifier, a candidate without a
   * creation time never matches a persisted record, all of which carry one:
   * such a candidate is never a duplicate.
   */
  lemma UnstampedCandidateNeverDuplicate(store: Store, candidate: Service, same: (Service, Service) -> bool)
    requires WellFormed(store)
    requires forall a, b :: same(a, b) == SameButId(a, b)
    requires candidate.fechaCreacion.None?
    ensures !IsDuplicate(store, candidate, same)
  {
    forall k | k in OwnedBy(store, candidate.usuarioPrestador)
      ensures !same(candidate, store[k])
    {
      assert Persisted(k, store[k]);
      assert candidate.(id := None).fechaCreacion != store[k].(id := None).fechaCreacion;
    }
  }
}
